=== FILE: README.md ===
# Interception DNS allocator and identity list, in Dafny

This project models two parts of the Windows tunneling client's service (Go).

- **The DNS manager** of `service/cziti/dns.go`. It hands out synthetic IPv4 addresses to intercepted host names and records which overlay service and network claimed each host:port. Its state is:
  - a base network `cidr`;
  - a 32-bit counter `ipCount`;
  - a host name map: normalized name to (context, address, network);
  - a service map: host:port key to (context, service name, service id, reference count).

  The operations are `normalizeDnsName`, `DnsInit`, `RegisterService`, `Resolve` and `DeregisterService`.
- **The identity list** of the tunneler state in `service/ziti-tunnel/runtime/state.go`. Identities are found and removed by fingerprint: `Find`, `RemoveByFingerprint`, `FindByIdentity` and `RemoveByIdentity`.

The global `DNS` value is an immutable `Dns` record. Every operation is a pure function from one record to the next.

Files:

- `wrappers.dfy`: `Option` and `Result`.
- `dnsname.dfy`: host name normalization. Go's `strings.TrimSpace` is modelled as an index scan from both ends, plus ASCII lower-casing.
- `servicekey.dfy`: the service-map key `fmt.Sprint(dnsName, ':', port)`. Because the rune `':'` prints as `58`, the key of ("a.", 443) is `"a.58 443"`. A parser for the key proves it injective, so the model keys the map by the (name, port) pair.
- `ipv4block.dfy`: 32-bit addresses and prefix blocks.
  - Words are integers below 2^32. The two bitwise operations the code uses are defined bit by bit: masking by a prefix (`Network`, `HostPart`) and OR (`Or`).
  - `Successor` is `atomic.AddUint32(&x, 1)` with its wrap-around written out.
- `dns.dfy`: the DNS manager's state and operations.
- `dnsproperties.dfy`: the allocation invariant and its preservation over any run of calls.
  - Addresses stay in the block and distinct.
  - Host name entries never change.
  - Service entries stay sound.
- `dnsscenarios.dfy`: the registration protocol on concrete call sequences, as the code behaves.
- `tunnelerstate.dfy`: the identity list.

## What the code does that its comments do not say

The model follows the code in every case.

- **First address.** `DnsInit` sets the counter to 2 (dns.go:190), and `atomic.AddUint32` returns the incremented value. So the first address handed out is `cidr | 3`; the counter's start value 2 is never handed out (`DnsScenarios.FirstAddressIsOffsetThree`).
- **No reference count is kept.** The comment at dns.go:103-104 says a repeat registration increments the counter of services using the host name, and the one at dns.go:154 says a mapping still in use is kept. The `count` field of `ctxService` is meant for this. But:
  - `foundContext.count ++` and `sc.count --` change copies of map values, so the stored count is always 1.
  - Registering a host:port twice changes nothing.
  - The first matching deregistration deletes the entry (`DnsScenarios.RegisterTwice`, `DnsScenarios.RegisterTwiceDeregisterOnce`).
- **Which network the conflict check uses.** The comment at dns.go:96 calls a mapping from another network an invalid state. The check compares against the network stored with the host name entry, and runs only when the exact host:port is already mapped.
  - A second network may therefore add a new port to a host name it does not own.
  - Repeating that same registration is then refused (`DnsScenarios.ForeignNewPortThenConflict`).
- **Conflicts return an address.** The comment at dns.go:78-79 pairs an error with an address that was not assigned. In the code a conflict returns the address already mapped to the host name, together with the error (`Reply.Conflict`).
- **The counter has no range check.** The same comment promises the next address "in the configured range". Once the last host offset of the block is used, the next address is the base address of a block (`DnsScenarios.CounterPastLastHost`).
- **Invalid prefix lengths.** `DnsInit` panics for a prefix length outside 0..32, because `net.CIDRMask` returns nil. This is `InitPanic`.
- **Small blocks.** A /31 or /32 block cannot hold the counter's starting value. The invariant is stated for prefixes of at most 30 bits.

## Model

| member | source | states |
|---|---|---|
| DnsName.Normalize | service/cziti/dns.go:68-76 | the normalized name ends in a dot, contains no upper-case ASCII letter and has no white space at either end |
| DnsName.TrimSpace | service/cziti/dns.go:69 | the trimmed text has no white space at either end, is no longer than the input, and is empty exactly when the input is all white space |
| DnsName.FullyQualify | service/cziti/dns.go:70-73 | the result ends in a dot, and a text without white space at its ends keeps that property |
| DnsName.ToLower | service/cziti/dns.go:75 | the result has the input's length, no upper-case ASCII letter, and each character is the lower-case form of the input's character at that position |
| DnsName.TrimSpaceSplits | service/cziti/dns.go:69 | every name is leading white space, then its trimmed form, then trailing white space |
| DnsName.TrimSpaceOfPadded | service/cziti/dns.go:69 | trimming white-space padding off a trimmed text gives back exactly that text |
| DnsName.NormalizeFixesNormalized | service/cziti/dns.go:68-76 | a name that is already trimmed, dotted and lower-case is left unchanged |
| DnsName.NormalizeIdempotent | service/cziti/dns.go:68-76 | normalizing twice gives the same name as normalizing once |
| DnsName.NormalizeIgnoresSurroundingSpace | service/cziti/dns.go:69 | white space added before or after a name does not change its normalized form |
| DnsName.NormalizeIgnoresTrailingDot | service/cziti/dns.go:70-73 | a name without a trailing dot and without trailing white space normalizes like the same name with one dot appended |
| DnsName.NormalizeIgnoresCase | service/cziti/dns.go:75 | names that differ only in ASCII letter case normalize identically |
| ServiceKey.ParseDecimalOfDecimal | service/cziti/dns.go:84 | the decimal text of a port reads back as the same number |
| ServiceKey.Key | service/cziti/dns.go:84 | the key text of a name and port parses back into exactly that name and port |
| ServiceKey.Text | service/cziti/dns.go:84 | the key text of a (name, port) pair parses back into that pair |
| ServiceKey.TextInjective | service/cziti/dns.go:84 | two (name, port) pairs have the same key text exactly when they are the same pair |
| Ipv4Block.Network | service/cziti/dns.go:188-189 | the masked address has no host bits, and adding the host part back gives the address |
| Ipv4Block.OrIsBitwise | service/cziti/dns.go:118 | each of the 32 bits of `Or(a, b)` is set exactly when that bit is set in `a` or in `b`, which is Go's `|` on `uint32` |
| Ipv4Block.SuccessorIsAddModulo | service/cziti/dns.go:118 | `Successor`, the counter step of `atomic.AddUint32`, is addition of one modulo 2^32 |
| Ipv4Block.ComposeSplits | service/cziti/dns.go:118 | OR-ing a host offset into a block's base address adds it, keeps the base as the network part and makes the offset the host part |
| Ipv4Block.ComposePastLastHost | service/cziti/dns.go:118 | for a prefix of at least 1 bit, the offset one past the last host offset does not wrap and gives an address with an empty host part |
| Dns.DnsInit | service/cziti/dns.go:182-192 | the first call sets a base with no host bits that is the network part of the address, a counter of 2 and empty maps; later calls change nothing; an invalid prefix fails |
| Dns.Start | service/cziti/dns.go:40-41 | the global value at process start: not initialized, base and counter 0, both maps empty |
| Dns.RegisterService | service/cziti/dns.go:80-82 | fails only when not yet initialized with an invalid prefix; otherwise the name resolves to the returned address and existing host name entries stay |
| Dns.Register | service/cziti/dns.go:83-136 | always replies with an address the name then resolves to, and never replaces or removes a host name entry |
| Dns.CheckMapped | service/cziti/dns.go:94-106 | on a mapped host:port the state is unchanged; there is a conflict exactly when the network or the service id differs, and the network is checked first |
| Dns.AddService | service/cziti/dns.go:107-115 | adds exactly the new key with count 1; everything else is unchanged |
| Dns.AllocateHost | service/cziti/dns.go:116-134 | the counter steps once, the reply is the base OR the new counter, and one host name entry with the caller's network plus one service entry are added |
| Dns.Resolve | service/cziti/dns.go:139-142 | returns an address exactly when the normalized name has an entry, and then that entry's address |
| Dns.FirstOwned | service/cziti/dns.go:146-148 | finds the first key in iteration order owned by the context and service name, with none owned before it |
| Dns.Owned | service/cziti/dns.go:148 | the deregistration test: the key has an entry whose context and service name both match |
| Dns.DeregisterService | service/cziti/dns.go:144-163 | host names and the counter are untouched; with no owned entry nothing changes; otherwise an owned entry is deleted once its decremented count is below 1 |
| DnsProperties.InitEstablishesInv | service/cziti/dns.go:182-192 | the first `DnsInit` with a prefix of at most 30 bits establishes the allocation invariant |
| DnsProperties.AllocateKeepsHosts | service/cziti/dns.go:116-127 | a new host name gets an address inside the block whose host offset is the stepped counter, above every earlier host name's offset, and distinct from every other host name's address |
| DnsProperties.AllocatePreservesInv | service/cziti/dns.go:116-134 | allocating for an unseen normalized name keeps the invariant |
| DnsProperties.AllocateKeepsServices | service/cziti/dns.go:128-133 | the service entry recorded with a new host name has count 1 and belongs to a known host name |
| DnsProperties.AddServicePreservesInv | service/cziti/dns.go:107-115 | adding a count-1 entry for a known host name keeps the invariant |
| DnsProperties.RegisterPreservesInv | service/cziti/dns.go:80-137 | registration keeps the invariant, given room in the counter when the name is new, and replies with an allocated address |
| DnsProperties.RemoveServicePreservesInv | service/cziti/dns.go:152 | deleting a service entry keeps the invariant |
| DnsProperties.DeregisterRemovesAtMostOne | service/cziti/dns.go:144-157 | deregistration deletes at most one entry, and exactly one when an owned entry exists and the iteration covers every key |
| DnsProperties.DeregisterPreservesInv | service/cziti/dns.go:144-163 | deregistration keeps the invariant, and the remaining service entries are unchanged |
| DnsProperties.DeregisterKeepsResolve | service/cziti/dns.go:139-163 | every name resolves the same before and after a deregistration |
| DnsProperties.ResolvedAddressesUnique | service/cziti/dns.go:139-142 | resolved addresses lie in the block, and two names resolve to the same address exactly when they normalize to the same name |
| DnsProperties.EntriesResolve | service/cziti/dns.go:139-142 | each host name entry is found by resolving its own name |
| DnsProperties.ApplyPreservesInv | service/cziti/dns.go:80-163 | one register, deregister or direct init call keeps the invariant and every host name entry, given room in the counter when the call allocates |
| DnsProperties.RunPreservesInv | service/cziti/dns.go:80-163 | any run of calls whose allocations stay inside the block keeps the invariant, and no host name entry ever changes |
| DnsProperties.RunFromStartKeepsInv | service/cziti/dns.go:40-41 | over the process lifetime from the start-up value, a run whose allocations stay inside the block either is still uninitialized and unchanged or holds the invariant for the block of its first `DnsInit`, whether a registration's or a direct one such as `CreateTun`'s: addresses in that block and distinct |
| DnsScenarios.FirstAddressIsOffsetThree | service/cziti/dns.go:118 | the first registration after start-up gets host offset 3 of the block |
| DnsScenarios.NewNameTakesNextAddress | service/cziti/dns.go:116-134 | an unseen name gets the base OR the successor of the counter, plus one host name entry and one count-1 service entry |
| DnsScenarios.KnownNameNewPort | service/cziti/dns.go:107-115 | a known name on an unmapped port gets the name's address from any network, and only the service entry is added |
| DnsScenarios.MappedKeyKeepsState | service/cziti/dns.go:94-106 | a mapped host:port never changes state; a network conflict comes before a service-id conflict, and both report the address |
| DnsScenarios.RepeatRegistrationChangesNothing | service/cziti/dns.go:103-106 | repeating a successful registration from the owning network returns the same reply and state |
| DnsScenarios.ForeignNewPortThenConflict | service/cziti/dns.go:91-115 | a foreign network may add a new port on a known name, but the same registration repeated is a network conflict |
| DnsScenarios.FirstRegistration | service/cziti/dns.go:80-134 | the first registration after start-up maps the name and holds exactly one service entry |
| DnsScenarios.RegisterTwice | service/cziti/dns.go:103-106 | registering the same host:port twice leaves the state of the first registration |
| DnsScenarios.RegisterTwiceDeregisterOnce | service/cziti/dns.go:144-163 | after two registrations, one deregistration empties the service map while the name still resolves to its address |
| DnsScenarios.AnyOwnedEntryMayBeRemoved | service/cziti/dns.go:146-152 | whichever owned entry the iteration reaches first is the one deleted |
| DnsScenarios.CounterPastLastHost | service/cziti/dns.go:118 | once the last host offset is used, the next registration's address has an empty host part |
| DnsScenarios.ThreeRegistrations | service/cziti/dns.go:91-134 | the three-call set-up: offset 3, the same address for a second port, and a network conflict for another network |
| TunnelerState.FindFrom | service/ziti-tunnel/runtime/state.go:45-49 | stops at the first position from the start with the fingerprint, or at the end |
| TunnelerState.Find | service/ziti-tunnel/runtime/state.go:44-51 | a match exists exactly when the index is below the length; the index is then the first match and the identity is the one there; otherwise nil |
| TunnelerState.RemoveByFingerprint | service/ziti-tunnel/runtime/state.go:37-42 | without a match the list is unchanged; otherwise exactly the first match is removed, the others keep their order, and the multiset loses only that identity |
| TunnelerState.FindByIdentity | service/ziti-tunnel/runtime/state.go:57-59 | finds the first identity with the given identity's fingerprint, or the length and nil |
| TunnelerState.RemoveByIdentity | service/ziti-tunnel/runtime/state.go:53-55 | without a match the list is unchanged; with a match, the first identity with the given identity's fingerprint is spliced out, whichever identity that is; with unique fingerprints, a listed identity is removed and nothing else |
| TunnelerState.RemoveByIdentityDropsFirstHolder | service/ziti-tunnel/runtime/state.go:53-55 | when an earlier, different identity has the same fingerprint, removing the later identity removes the earlier one and keeps the later one |
| TunnelerState.CountPositive | service/ziti-tunnel/runtime/state.go:44-50 | a fingerprint is counted at least once exactly when some identity carries it |
| TunnelerState.RemoveDropsOneMatch | service/ziti-tunnel/runtime/state.go:37-42 | one removal lowers the number of identities with the fingerprint by exactly one when there is a match |
| TunnelerState.RemoveKeepsOtherFingerprints | service/ziti-tunnel/runtime/state.go:37-42 | removal never changes the number of identities with any other fingerprint |
| TunnelerState.LaterDuplicateSurvives | service/ziti-tunnel/runtime/state.go:39-41 | after one removal the fingerprint is still found exactly when it was listed at least twice |
| TunnelerState.MemberIsFirstMatch | service/ziti-tunnel/runtime/state.go:44-49 | with unique fingerprints, a listed identity is the first match of its own fingerprint |
| TunnelerState.FindByIdentityFindsMember | service/ziti-tunnel/runtime/state.go:57-59 | with unique fingerprints, looking up a listed identity returns that identity |
| TunnelerState.RemoveKeepsUnique | service/ziti-tunnel/runtime/state.go:37-42 | removal keeps fingerprints unique, and the removed fingerprint is then absent |
| TunnelerState.RemovedAtKeepsUnique | service/ziti-tunnel/runtime/state.go:40 | dropping one position from a list with unique fingerprints keeps them unique and leaves no identity with the dropped fingerprint |

## Left out

- Concurrency is not modelled: `sync.Once`, the atomic counter and the unguarded map accesses become sequential transitions. `initOnce` becomes the `initialized` flag.
- Go's map iteration order in `DeregisterService` is random. It becomes an explicit `order` parameter, standing for one run of the iteration.
- Address text is not parsed: `net.ParseIP` and `To4` are left out, and `DnsInit` takes the address as a 32-bit word.
- An unparsable address string, which also panics, is outside the model.
- Words are integers below 2^32 rather than 32-bit bit-vectors.
  - The prefix mask and `|` are defined bit by bit.
  - The counter's wrap-around is written out in `Ipv4Block.Successor`.
- Calls through cgo are parameters. `C.GoString(ctx.Options.controller)` is the `network` argument, and a `*CZitiCtx` is an opaque number compared by identity.
- The `DnsInit` inside `RegisterService` takes its address and prefix from `constants.Ipv4ip` and `constants.Ipv4DefaultMask`. They are the `Config` parameter, because the constants file is not part of this model.
- `CreateTun` (service/ziti-tunnel/runtime/state.go:162) calls `DnsInit(Ipv4ip, 24)` directly; that call is `DnsProperties.InitCall` in a run. Because `initOnce` lets only the first `DnsInit` act, the block is a /24 when the device is created before any registration. The rest of `CreateTun` configures the Windows device and is left out.
- The service map is keyed by the (name, port) pair rather than the key text. `ServiceKey.TextInjective` shows the two key the same entries.
- A panic in `DnsInit` ends registration with `InitPanic`. Later process state, such as `sync.Once` treating the panicked call as done, is not modelled.
- `GetService` always returns nil and is not modelled.
- Logging is not modelled.
- `SaveState`, `Clean`, `CreateTun` (apart from its `DnsInit` call), `Close`, `LoadIdentity` and `noZiti` in state.go are left out. They do file and JSON I/O, read the clock and the environment, or configure Windows devices.
- The other fields of `TunnelerState` and `dto.Identity` are left out, because the lookups read only the fingerprint.
- The identity list is a sequence of values, not Go's `[]*dto.Identity` of pointers.
  - A nil element, which makes `Find` panic when it reads the fingerprint (state.go:46), cannot occur.
  - `Find` returns the identity's value, not a pointer that aliases the list's element.
  - The `append` splice at state.go:40 shifts the shared backing array in place, which other holders of the old slice would see. The model returns a new list and leaves aliasing out.
- DnsName.Normalize: lower-casing covers ASCII letters only. Go's `strings.ToLower` also maps other Unicode upper-case letters.
- DnsName.ToLower: only `'A'` to `'Z'` are lowered, for the same reason. Unicode case mapping tables are not modelled.
- DnsName.TrimSpaceOfPadded: the white-space set is Unicode's White_Space property, as `unicode.IsSpace` uses. Invalid UTF-8, which Go decodes to U+FFFD, cannot occur in a Dafny string.
- DnsProperties.InitEstablishesInv: the invariant is stated only for prefixes of at most 30 bits. A /31 or /32 block has no room for the counter's start, and the code does not check this.
- DnsProperties.RunPreservesInv: the invariant is proved only for runs where the counter is below the block's last host offset before every registration of a new host name (`HasRoom`). Other calls never touch the counter and need no room. Past that point `DnsScenarios.CounterPastLastHost` shows what happens.
- DnsProperties.RunFromStartKeepsInv: stated for a first `DnsInit` with a prefix of at most 30 bits, and for runs with room before each allocation on an initialized state (`HasRoom`). The first registration initializes the counter to 2 and needs no room.

=== FILE: dns.dfy ===
/**
 The DNS manager of service/cziti/dns.go: a virtual-address allocator and
 service registry. Intercepted host names get synthetic IPv4 addresses
 `cidr | ipCount`, and every (host name, port) pair records the overlay
 service that claimed it.

 The global `DNS` value is modelled as an immutable `Dns` record and each
 operation as a transition returning the next record. `sync.Once` becomes
 the `initialized` flag, `atomic.AddUint32` an increment that wraps at
 2^32.
 */
module Dns {
  import opened Wrappers
  import opened DnsName
  import opened Ipv4Block
  import ServiceKey

  /** A `*CZitiCtx` pointer: an opaque handle compared by identity. */
  type Ctx = nat

  /** `ctxIp`: the address a host name was given and the network (the
      controller of the identity) that first claimed it. */
  datatype HostEntry = HostEntry(ctx: Ctx, ip: Word, network: string)

  /** `ctxService`: the service that claimed a host name and port. */
  datatype ServiceEntry = ServiceEntry(ctx: Ctx, name: string, serviceId: string, count: int)

  /** `dnsImpl`, plus whether `DnsInit` has run. */
  datatype Dns = Dns(
    initialized: bool,
    cidr: Word,
    ipCount: Word,
    // keyed in the source by the text `ServiceKey.Text` of the pair, which
    // is injective (`ServiceKey.TextInjective`)
    serviceMap: map<ServiceKey.HostPort, ServiceEntry>,
    hostnameMap: map<string, HostEntry>)

  /** The global `DNS` at process start: zero fields and nil maps, which
      Go reads as empty. */
  const Start: Dns := Dns(false, 0, 0, map[], map[])

  /** The address and prefix length `RegisterService` passes to `DnsInit`
      (`constants.Ipv4ip`, `constants.Ipv4DefaultMask`). */
  datatype Config = Config(ip: Word, maskBits: int)

  /** `net.CIDRMask` returned nil and reading it as a word panicked. */
  datatype InitError = BadPrefix(maskBits: int)

  /** `DnsInit`: the first call computes the base network and empties
      both maps; every later call is ignored. */
  function DnsInit(d: Dns, ip: Word, maskBits: int): (r: Result<Dns, InitError>)
    ensures d.initialized ==> r == Success(d)
    ensures !d.initialized && !ValidPrefix(maskBits) ==> r == Failure(BadPrefix(maskBits))
    ensures !d.initialized && ValidPrefix(maskBits) ==>
      && r.Success?
      && r.value.initialized
      && Low(r.value.cidr, HostLen(maskBits)) == 0
      && r.value.cidr + HostPart(ip, maskBits) == ip
      && r.value.ipCount == 2
      && r.value.serviceMap == map[]
      && r.value.hostnameMap == map[]
  {
    if d.initialized then Success(d)
    else if !ValidPrefix(maskBits) then Failure(BadPrefix(maskBits))
    else Success(Dns(true, Network(ip, maskBits), 2, map[], map[]))
  }

  // ---------------------------------------------------------------------
  // RegisterService
  // ---------------------------------------------------------------------

  datatype RegisterError =
    | NetworkConflict(mappedNetwork: string)    // host:port held by another identity's network
    | ServiceIdConflict(mappedServiceId: string) // host:port held by another service

  /** What `RegisterService` returns: an address, an address together with
      a conflict error, or nothing because initialization panicked. */
  datatype Reply =
    | Mapped(ip: Word)
    | Conflict(ip: Word, error: RegisterError)
    | InitPanic

  datatype Step = Step(reply: Reply, dns: Dns)

  /** `RegisterService`. `network` is the controller address read from
      `ctx`. It first runs `DnsInit` with the configured block, then
      registers on the initialized state. */
  function RegisterService(d: Dns, cfg: Config, svcId: string, dnsNameToReg: string,
                           port: ServiceKey.Port, ctx: Ctx, network: string, svcName: string): (s: Step)
    ensures s.reply.InitPanic? <==> !d.initialized && !ValidPrefix(cfg.maskBits)
    ensures s.reply.InitPanic? ==> s.dns == d
    ensures !s.reply.InitPanic? ==> s.dns.initialized && Resolve(s.dns, dnsNameToReg) == Some(s.reply.ip)
    ensures d.initialized ==> s.dns.cidr == d.cidr
    // host name entries are never replaced or removed
    ensures d.initialized ==>
      forall n :: n in d.hostnameMap ==> n in s.dns.hostnameMap && s.dns.hostnameMap[n] == d.hostnameMap[n]
  {
    match DnsInit(d, cfg.ip, cfg.maskBits)
    case Failure(_) => Step(InitPanic, d)
    case Success(d0) => Register(d0, svcId, dnsNameToReg, port, ctx, network, svcName)
  }

  /** The body of `RegisterService` once `DnsInit` has run. The reference
      count `count` is incremented on a copy of the map entry in the
      source, so a repeat registration writes nothing. */
  function Register(d: Dns, svcId: string, dnsNameToReg: string,
                    port: ServiceKey.Port, ctx: Ctx, network: string, svcName: string): (s: Step)
    requires d.initialized
    ensures s.reply.Mapped? || s.reply.Conflict?
    ensures s.dns.initialized && s.dns.cidr == d.cidr
    ensures Resolve(s.dns, dnsNameToReg) == Some(s.reply.ip)
    // host name entries are never replaced or removed
    ensures forall n :: n in d.hostnameMap ==> n in s.dns.hostnameMap && s.dns.hostnameMap[n] == d.hostnameMap[n]
  {
    var name := Normalize(dnsNameToReg);
    var key := ServiceKey.HostPort(name, port);
    if name in d.hostnameMap then
      if key in d.serviceMap then CheckMapped(d, name, key, svcId, network)
      else Step(Mapped(d.hostnameMap[name].ip), AddService(d, key, ctx, svcName, svcId))
    else
      AllocateHost(d, name, key, ctx, network, svcName, svcId)
  }

  /** A mapped host:port: report the first conflict, or accept the repeat
      (whose `count ++` acts on a copy and is lost). */
  function CheckMapped(d: Dns, name: string, key: ServiceKey.HostPort, svcId: string, network: string): (s: Step)
    requires name in d.hostnameMap && key in d.serviceMap
    ensures s.dns == d
    ensures !s.reply.InitPanic? && s.reply.ip == d.hostnameMap[name].ip
    ensures s.reply.Conflict? <==> network != d.hostnameMap[name].network || svcId != d.serviceMap[key].serviceId
    ensures network != d.hostnameMap[name].network ==>
      s.reply == Conflict(d.hostnameMap[name].ip, NetworkConflict(d.hostnameMap[name].network))
    ensures network == d.hostnameMap[name].network && svcId != d.serviceMap[key].serviceId ==>
      s.reply == Conflict(d.hostnameMap[name].ip, ServiceIdConflict(d.serviceMap[key].serviceId))
    ensures !s.reply.Conflict? ==> s.reply == Mapped(d.hostnameMap[name].ip)
  {
    var found := d.hostnameMap[name];
    if found.network != network then
      Step(Conflict(found.ip, NetworkConflict(found.network)), d)
    else if d.serviceMap[key].serviceId != svcId then
      Step(Conflict(found.ip, ServiceIdConflict(d.serviceMap[key].serviceId)), d)
    else
      Step(Mapped(found.ip), d)
  }

  /** Records a service entry with count 1 under `key`. */
  function AddService(d: Dns, key: ServiceKey.HostPort, ctx: Ctx, svcName: string, svcId: string): (d': Dns)
    ensures d'.serviceMap.Keys == d.serviceMap.Keys + {key}
    ensures d'.serviceMap[key] == ServiceEntry(ctx, svcName, svcId, 1)
    ensures forall k :: k in d.serviceMap && k != key ==> d'.serviceMap[k] == d.serviceMap[k]
    ensures d'.hostnameMap == d.hostnameMap && d'.ipCount == d.ipCount
    ensures d'.cidr == d.cidr && d'.initialized == d.initialized
  {
    d.(serviceMap := d.serviceMap[key := ServiceEntry(ctx, svcName, svcId, 1)])
  }

  /** An unseen host name: bump the counter and take `cidr | ipCount`. */
  function AllocateHost(d: Dns, name: string, key: ServiceKey.HostPort, ctx: Ctx, network: string,
                        svcName: string, svcId: string): (s: Step)
    requires d.initialized && name !in d.hostnameMap
    ensures s.dns.ipCount == Successor(d.ipCount)
    ensures s.reply == Mapped(Or(d.cidr, s.dns.ipCount))
    ensures s.dns.hostnameMap.Keys == d.hostnameMap.Keys + {name}
    ensures s.dns.hostnameMap[name] == HostEntry(ctx, s.reply.ip, network)
    ensures forall n :: n in d.hostnameMap ==> s.dns.hostnameMap[n] == d.hostnameMap[n]
    ensures s.dns.serviceMap == AddService(d, key, ctx, svcName, svcId).serviceMap
    ensures s.dns.initialized && s.dns.cidr == d.cidr
  {
    var count := Successor(d.ipCount);
    var ip := Or(d.cidr, count);
    Step(Mapped(ip),
         AddService(d, key, ctx, svcName, svcId).(
           ipCount := count,
           hostnameMap := d.hostnameMap[name := HostEntry(ctx, ip, network)]))
  }

  // ---------------------------------------------------------------------
  // Resolve
  // ---------------------------------------------------------------------

  /** `Resolve`: the address of the normalized name, `None` for the nil
      address of a missing entry. */
  function Resolve(d: Dns, toResolve: string): (r: Option<Word>)
    ensures r.Some? <==> Normalize(toResolve) in d.hostnameMap
    ensures r.Some? ==> r.value == d.hostnameMap[Normalize(toResolve)].ip
  {
    var name := Normalize(toResolve);
    if name in d.hostnameMap then Some(d.hostnameMap[name].ip) else None
  }

  // ---------------------------------------------------------------------
  // DeregisterService
  // ---------------------------------------------------------------------

  /** The entry under `key` belongs to service `name` of context `ctx`. */
  predicate Owned(m: map<ServiceKey.HostPort, ServiceEntry>, key: ServiceKey.HostPort, ctx: Ctx, name: string) {
    key in m && m[key].ctx == ctx && m[key].name == name
  }

  /** `order` lists every key: it stands for one run of Go's randomized
      map iteration. */
  predicate CoversKeys(order: seq<ServiceKey.HostPort>, m: map<ServiceKey.HostPort, ServiceEntry>) {
    forall k :: k in m ==> k in order
  }

  /** Position of the first key, at or after `from`, owned by (ctx, name). */
  function FirstOwned(m: map<ServiceKey.HostPort, ServiceEntry>, ctx: Ctx, name: string,
                      order: seq<ServiceKey.HostPort>, from: nat): (r: Option<nat>)
    requires from <= |order|
    ensures r.Some? ==> from <= r.value < |order| && Owned(m, order[r.value], ctx, name)
    ensures r.Some? ==> forall j :: from <= j < r.value ==> !Owned(m, order[j], ctx, name)
    ensures r.None? ==> forall j :: from <= j < |order| ==> !Owned(m, order[j], ctx, name)
    decreases |order| - from
  {
    if from == |order| then None
    else if Owned(m, order[from], ctx, name) then Some(from)
    else FirstOwned(m, ctx, name, order, from + 1)
  }

  /** `DeregisterService`, scanning the keys in `order`. The first entry
      owned by (ctx, name) has its count decremented on a copy; the entry
      is deleted when that copy drops below 1 and otherwise left as is. */
  function DeregisterService(d: Dns, ctx: Ctx, name: string, order: seq<ServiceKey.HostPort>): (d': Dns)
    ensures d'.initialized == d.initialized && d'.cidr == d.cidr && d'.ipCount == d.ipCount
    ensures d'.hostnameMap == d.hostnameMap
    ensures (forall k :: k in d.serviceMap ==> !Owned(d.serviceMap, k, ctx, name)) ==> d' == d
    ensures CoversKeys(order, d.serviceMap) && (exists k :: Owned(d.serviceMap, k, ctx, name)) ==>
      exists k :: Owned(d.serviceMap, k, ctx, name) &&
        d'.serviceMap == (if d.serviceMap[k].count - 1 < 1 then d.serviceMap - {k} else d.serviceMap)
  {
    match FirstOwned(d.serviceMap, ctx, name, order, 0)
    case None => d
    case Some(i) =>
      var k := order[i];
      if d.serviceMap[k].count - 1 < 1 then d.(serviceMap := d.serviceMap - {k}) else d
  }
}

=== FILE: dnsname.dfy ===
/**
 Hostname normalization of the DNS manager (`normalizeDnsName` in
 service/cziti/dns.go): trim surrounding white space, force a trailing
 dot (fully-qualified form), lower-case.

 Strings are sequences of Unicode code points. White space is Go's
 `unicode.IsSpace`; lower-casing covers ASCII letters only.
 */
module DnsName {

  /** Go's `unicode.IsSpace`: the Unicode White_Space property. */
  predicate IsSpace(c: char) {
    var n := c as int;
    || (0x09 <= n <= 0x0D) || n == 0x20 || n == 0x85 || n == 0xA0
    || n == 0x1680 || (0x2000 <= n <= 0x200A) || n == 0x2028 || n == 0x2029
    || n == 0x202F || n == 0x205F || n == 0x3000
  }

  predicate AllSpace(s: string) {
    forall i :: 0 <= i < |s| ==> IsSpace(s[i])
  }

  /** No white space at either end. */
  predicate Trimmed(s: string) {
    |s| == 0 || (!IsSpace(s[0]) && !IsSpace(s[|s| - 1]))
  }

  predicate IsUpper(c: char) {
    'A' <= c <= 'Z'
  }

  /** Contains no upper-case ASCII letter. */
  predicate LowerCase(s: string) {
    forall i :: 0 <= i < |s| ==> !IsUpper(s[i])
  }

  predicate EndsWithDot(s: string) {
    |s| > 0 && s[|s| - 1] == '.'
  }

  function LowerChar(c: char): (r: char)
    ensures !IsUpper(r)
    ensures IsSpace(r) <==> IsSpace(c)
    ensures r == '.' <==> c == '.'
    ensures !IsUpper(c) ==> r == c
  {
    if IsUpper(c) then (c as int + 32) as char else c
  }

  /** `strings.ToLower`, restricted to ASCII letters. */
  function ToLower(s: string): (r: string)
    ensures |r| == |s|
    ensures LowerCase(r)
    ensures forall i :: 0 <= i < |s| ==> r[i] == LowerChar(s[i])
  {
    seq(|s|, i requires 0 <= i < |s| => LowerChar(s[i]))
  }

  lemma ToLowerKeepsShape(s: string)
    ensures Trimmed(ToLower(s)) <==> Trimmed(s)
    ensures EndsWithDot(ToLower(s)) <==> EndsWithDot(s)
  {
  }

  /** Index of the first non-space character at or after `i`, or `|s|`
      when there is none. */
  function SpaceEnd(s: string, i: nat): (j: nat)
    requires i <= |s|
    ensures i <= j <= |s|
    ensures forall k :: i <= k < j ==> IsSpace(s[k])
    ensures j < |s| ==> !IsSpace(s[j])
    decreases |s| - i
  {
    if i < |s| && IsSpace(s[i]) then SpaceEnd(s, i + 1) else i
  }

  /** Index just past the last non-space character before `j`, or 0 when
      there is none. */
  function SpaceStart(s: string, j: nat): (i: nat)
    requires j <= |s|
    ensures i <= j
    ensures forall k :: i <= k < j ==> IsSpace(s[k])
    ensures 0 < i ==> !IsSpace(s[i - 1])
  {
    if 0 < j && IsSpace(s[j - 1]) then SpaceStart(s, j - 1) else j
  }

  /** `strings.TrimSpace`: scans in from both ends past white space and
      keeps what lies between. */
  function TrimSpace(s: string): (r: string)
    ensures Trimmed(r)
    ensures |r| <= |s|
    ensures r == [] <==> AllSpace(s)
  {
    var start := SpaceEnd(s, 0);
    if start == |s| then []
    else
      var stop := SpaceStart(s, |s|);
      assert start < stop by {
        assert !IsSpace(s[start]);
      }
      s[start..stop]
  }

  /** Appends a dot unless the name already ends in one. */
  function FullyQualify(t: string): (r: string)
    ensures EndsWithDot(r)
    ensures Trimmed(t) ==> Trimmed(r)
  {
    if EndsWithDot(t) then t
    else
      assert (t + ".")[|t|] == '.';
      assert |t| > 0 ==> (t + ".")[0] == t[0];
      t + "."
  }

  /** `normalizeDnsName`. */
  function Normalize(name: string): (r: string)
    ensures EndsWithDot(r)
    ensures LowerCase(r)
    ensures Trimmed(r)
  {
    var fq := FullyQualify(TrimSpace(name));
    ToLowerKeepsShape(fq);
    ToLower(fq)
  }

  /** A normalized name is one that `Normalize` leaves as it is. */
  predicate IsNormalized(name: string) {
    EndsWithDot(name) && LowerCase(name) && Trimmed(name)
  }

  // ----- what trimming keeps -----

  /** A string splits into leading white space, its trimmed form and
      trailing white space. */
  lemma TrimSpaceSplits(s: string) returns (lead: string, trail: string)
    ensures s == lead + TrimSpace(s) + trail
    ensures AllSpace(lead) && AllSpace(trail)
  {
    var start := SpaceEnd(s, 0);
    if start == |s| {
      lead, trail := s, [];
      assert s + [] + [] == s;
    } else {
      var stop := SpaceStart(s, |s|);
      assert start < stop by {
        assert !IsSpace(s[start]);
      }
      lead, trail := s[..start], s[stop..];
      assert s == s[..start] + s[start..stop] + s[stop..];
    }
  }

  /** Conversely, whatever trimmed text is surrounded only by white space
      is what trimming keeps. */
  lemma TrimSpaceOfPadded(lead: string, m: string, trail: string)
    requires AllSpace(lead) && AllSpace(trail) && Trimmed(m)
    ensures TrimSpace(lead + m + trail) == m
  {
    var s := lead + m + trail;
    var start := SpaceEnd(s, 0);
    if |m| == 0 {
      assert AllSpace(s) by {
        forall k | 0 <= k < |s|
          ensures IsSpace(s[k])
        {
          if k < |lead| {
            assert s[k] == lead[k];
          } else {
            assert s[k] == trail[k - |lead|];
          }
        }
      }
    } else {
      assert s[|lead|] == m[0];
      assert s[|lead| + |m| - 1] == m[|m| - 1];
      assert start == |lead|;
      var stop := SpaceStart(s, |s|);
      assert stop == |lead| + |m|;
      assert s[start..stop] == m;
    }
  }

  lemma TrimSpaceOfTrimmed(s: string)
    requires Trimmed(s)
    ensures TrimSpace(s) == s
  {
    TrimSpaceOfPadded([], s, []);
    assert [] + s + [] == s;
  }

  lemma ToLowerOfLowerCase(s: string)
    requires LowerCase(s)
    ensures ToLower(s) == s
  {
  }

  /** A normalized name is a fixed point of `Normalize`. */
  lemma NormalizeFixesNormalized(name: string)
    requires IsNormalized(name)
    ensures Normalize(name) == name
  {
    TrimSpaceOfTrimmed(name);
    ToLowerOfLowerCase(name);
  }

  /** Normalizing twice is normalizing once. */
  lemma NormalizeIdempotent(name: string)
    ensures Normalize(Normalize(name)) == Normalize(name)
  {
    NormalizeFixesNormalized(Normalize(name));
  }

  // ----- white space around the name -----

  lemma Regroup(a: string, b: string, c: string, d: string, e: string)
    ensures a + (b + c + d) + e == (a + b) + c + (d + e)
  {
  }

  lemma AllSpaceAppend(a: string, b: string)
    requires AllSpace(a) && AllSpace(b)
    ensures AllSpace(a + b)
  {
  }

  lemma TrimSpaceIgnoresSurroundingSpace(before: string, name: string, after: string)
    requires AllSpace(before) && AllSpace(after)
    ensures TrimSpace(before + name + after) == TrimSpace(name)
  {
    var lead, trail := TrimSpaceSplits(name);
    var m := TrimSpace(name);
    Regroup(before, lead, m, trail, after);
    AllSpaceAppend(before, lead);
    AllSpaceAppend(trail, after);
    TrimSpaceOfPadded(before + lead, m, trail + after);
  }

  /** Surrounding white space does not affect the normalized name. */
  lemma NormalizeIgnoresSurroundingSpace(before: string, name: string, after: string)
    requires AllSpace(before) && AllSpace(after)
    ensures Normalize(before + name + after) == Normalize(name)
  {
    TrimSpaceIgnoresSurroundingSpace(before, name, after);
  }

  // ----- one trailing dot -----

  /** When the name does not end in white space, trimming leaves its end
      alone: a dot appended to the name stays appended to the trimmed
      name, and a non-empty name keeps its last character. */
  lemma TrimSpaceWithDot(name: string)
    requires |name| == 0 || !IsSpace(name[|name| - 1])
    ensures TrimSpace(name + ".") == TrimSpace(name) + "."
    ensures |name| > 0 ==> |TrimSpace(name)| > 0
    ensures |name| > 0 ==> TrimSpace(name)[|TrimSpace(name)| - 1] == name[|name| - 1]
  {
    var lead, trail := TrimSpaceSplits(name);
    var m := TrimSpace(name);
    if |name| > 0 {
      assert !AllSpace(name);
      assert |trail| == 0;
      assert name == lead + m;
      assert name[|name| - 1] == m[|m| - 1];
    } else {
      assert |m| == 0 && |lead| == 0;
    }
    assert Trimmed(m + ".") by {
      assert (m + ".")[|m|] == '.';
      assert |m| > 0 ==> (m + ".")[0] == m[0];
    }
    assert name + "." == lead + (m + ".") + [];
    assert AllSpace([]);
    TrimSpaceOfPadded(lead, m + ".", []);
  }

  /** A name without a trailing dot normalizes like the same name with
      one dot appended (white space in front of the dot would stay inside
      the name, so the name must not end in white space). */
  lemma NormalizeIgnoresTrailingDot(name: string)
    requires !EndsWithDot(name)
    requires |name| == 0 || !IsSpace(name[|name| - 1])
    ensures Normalize(name + ".") == Normalize(name)
  {
    TrimSpaceWithDot(name);
    var t := TrimSpace(name);
    assert !EndsWithDot(t);
    assert FullyQualify(t + ".") == t + ".";
    assert FullyQualify(t) == t + ".";
  }

  // ----- case -----

  lemma ToLowerAppend(a: string, b: string)
    ensures ToLower(a + b) == ToLower(a) + ToLower(b)
  {
  }

  lemma ToLowerKeepsSpace(w: string)
    requires AllSpace(w)
    ensures AllSpace(ToLower(w))
  {
  }

  lemma TrimSpaceToLower(s: string)
    ensures TrimSpace(ToLower(s)) == ToLower(TrimSpace(s))
  {
    var lead, trail := TrimSpaceSplits(s);
    var m := TrimSpace(s);
    ToLowerAppend(lead + m, trail);
    ToLowerAppend(lead, m);
    ToLowerKeepsSpace(lead);
    ToLowerKeepsSpace(trail);
    ToLowerKeepsShape(m);
    TrimSpaceOfPadded(ToLower(lead), ToLower(m), ToLower(trail));
  }

  lemma ToLowerTwice(s: string)
    ensures ToLower(ToLower(s)) == ToLower(s)
  {
  }

  lemma FullyQualifyToLower(t: string)
    ensures FullyQualify(ToLower(t)) == ToLower(FullyQualify(t))
  {
    ToLowerKeepsShape(t);
    if !EndsWithDot(t) {
      assert ToLower(t) + "." == ToLower(t + ".");
    }
  }

  /** Lower-casing the input first makes no difference. */
  lemma NormalizeOfToLower(name: string)
    ensures Normalize(ToLower(name)) == Normalize(name)
  {
    TrimSpaceToLower(name);
    var t := TrimSpace(name);
    FullyQualifyToLower(t);
    ToLowerTwice(FullyQualify(t));
  }

  /** Names that differ only in the case of ASCII letters normalize
      identically. */
  lemma NormalizeIgnoresCase(a: string, b: string)
    requires ToLower(a) == ToLower(b)
    ensures Normalize(a) == Normalize(b)
  {
    NormalizeOfToLower(a);
    NormalizeOfToLower(b);
  }
}

=== FILE: dnsproperties.dfy ===
/**
 Properties of the DNS manager that span several operations: the
 allocation invariant (addresses stay in the block and stay distinct),
 what a run of registrations and deregistrations keeps, and the concrete
 behaviour of the registration protocol as written in
 service/cziti/dns.go.
 */
module DnsProperties {
  import opened Wrappers
  import opened DnsName
  import opened Ipv4Block
  import ServiceKey
  import opened Dns

  /** `ip` lies in the block of `d` and its host offset is one the counter
      has already handed out (offsets 0 to 2 are never handed out). */
  predicate Allocated(d: Dns, p: PrefixLen, ip: Word) {
    Network(ip, p) == d.cidr && 3 <= HostPart(ip, p) <= d.ipCount
  }

  /** The service key was built from a host name that has an entry. */
  predicate KeyOfKnownHost(d: Dns, key: ServiceKey.HostPort) {
    key.name in d.hostnameMap
  }

  /** Every host name entry is stored under a normalized name and holds
      an allocated address. */
  predicate HostsAllocated(d: Dns, p: PrefixLen) {
    forall n :: n in d.hostnameMap ==> IsNormalized(n) && Allocated(d, p, d.hostnameMap[n].ip)
  }

  /** No two host names share an address. */
  predicate HostsDistinct(d: Dns) {
    forall n1, n2 :: n1 in d.hostnameMap && n2 in d.hostnameMap && n1 != n2 ==>
      d.hostnameMap[n1].ip != d.hostnameMap[n2].ip
  }

  /** Every service entry has count 1 and belongs to a known host name. */
  predicate ServicesSound(d: Dns) {
    forall k :: k in d.serviceMap ==> d.serviceMap[k].count == 1 && KeyOfKnownHost(d, k)
  }

  /** What holds of the global `DNS` after `DnsInit` with prefix length
      `p`, for as long as the counter stays inside the block. */
  predicate Inv(d: Dns, p: PrefixLen) {
    && d.initialized
    && Low(d.cidr, HostLen(p)) == 0
    && 2 <= d.ipCount <= HostBits(p)
    && HostsAllocated(d, p)
    && HostsDistinct(d)
    && ServicesSound(d)
  }

  // ---------------------------------------------------------------------
  // The invariant is established and kept
  // ---------------------------------------------------------------------

  /** The first `DnsInit` with a prefix of at most 30 bits establishes the
      invariant; /31 and /32 blocks have no room for the counter's start. */
  lemma InitEstablishesInv(d: Dns, ip: Word, maskBits: int)
    requires !d.initialized
    requires 0 <= maskBits <= 30
    ensures DnsInit(d, ip, maskBits).Success?
    ensures Inv(DnsInit(d, ip, maskBits).value, maskBits)
  {
    RoomForFirstHosts(maskBits);
  }

  /** The address allocated for an unseen name lies in the block; its
      host offset is the stepped counter, above every offset handed out
      before. */
  lemma AllocateKeepsHosts(d: Dns, p: PrefixLen, name: string, key: ServiceKey.HostPort,
                           ctx: Ctx, network: string, svcName: string, svcId: string)
    requires Inv(d, p)
    requires d.ipCount < HostBits(p)
    requires IsNormalized(name) && name !in d.hostnameMap
    ensures var s := AllocateHost(d, name, key, ctx, network, svcName, svcId);
      && s.dns.ipCount == d.ipCount + 1
      && HostsAllocated(s.dns, p)
      && HostsDistinct(s.dns)
      && Allocated(s.dns, p, s.reply.ip)
      && HostPart(s.reply.ip, p) == s.dns.ipCount
      && (forall n :: n in d.hostnameMap ==> HostPart(d.hostnameMap[n].ip, p) < HostPart(s.reply.ip, p))
      && forall n :: n in d.hostnameMap ==> d.hostnameMap[n].ip != s.reply.ip
  {
    var s := AllocateHost(d, name, key, ctx, network, svcName, svcId);
    HostOffsetsAreWords(p);
    var c := d.ipCount + 1;
    assert s.dns.ipCount == c;
    ComposeSplits(d.cidr, c, p);
    forall n | n in d.hostnameMap
      ensures Allocated(s.dns, p, s.dns.hostnameMap[n].ip)
      ensures HostPart(d.hostnameMap[n].ip, p) < HostPart(s.reply.ip, p)
      ensures d.hostnameMap[n].ip != s.reply.ip
    {
      assert Allocated(d, p, d.hostnameMap[n].ip);
    }
  }

  /** Allocating a fresh address for an unseen normalized name keeps the
      invariant, and the address is one no other name has. */
  lemma AllocatePreservesInv(d: Dns, p: PrefixLen, name: string, port: ServiceKey.Port,
                             ctx: Ctx, network: string, svcName: string, svcId: string)
    requires Inv(d, p)
    requires d.ipCount < HostBits(p)
    requires IsNormalized(name) && name !in d.hostnameMap
    ensures var s := AllocateHost(d, name, ServiceKey.HostPort(name, port), ctx, network, svcName, svcId);
      && Inv(s.dns, p)
      && Allocated(s.dns, p, s.reply.ip)
      && forall n :: n in d.hostnameMap ==> d.hostnameMap[n].ip != s.reply.ip
  {
    var key := ServiceKey.HostPort(name, port);
    var s := AllocateHost(d, name, key, ctx, network, svcName, svcId);
    AllocateKeepsHosts(d, p, name, key, ctx, network, svcName, svcId);
    AllocateKeepsServices(d, name, port, ctx, network, svcName, svcId);
  }

  /** The service entry recorded with a new host name belongs to it. */
  lemma AllocateKeepsServices(d: Dns, name: string, port: ServiceKey.Port,
                              ctx: Ctx, network: string, svcName: string, svcId: string)
    requires d.initialized && name !in d.hostnameMap
    requires ServicesSound(d)
    ensures ServicesSound(AllocateHost(d, name, ServiceKey.HostPort(name, port), ctx, network, svcName, svcId).dns)
  {
    var key := ServiceKey.HostPort(name, port);
    var d' := AllocateHost(d, name, key, ctx, network, svcName, svcId).dns;
    forall k | k in d'.serviceMap
      ensures d'.serviceMap[k].count == 1 && KeyOfKnownHost(d', k)
    {
      if k != key {
        assert KeyOfKnownHost(d, k);
      }
    }
  }

  /** Adding a count-1 service entry for a known host name keeps the
      invariant. */
  lemma AddServicePreservesInv(d: Dns, p: PrefixLen, key: ServiceKey.HostPort, ctx: Ctx, svcName: string, svcId: string)
    requires Inv(d, p)
    requires KeyOfKnownHost(d, key)
    ensures Inv(AddService(d, key, ctx, svcName, svcId), p)
  {
    var d' := AddService(d, key, ctx, svcName, svcId);
    assert HostsAllocated(d', p);
    forall k | k in d'.serviceMap
      ensures d'.serviceMap[k].count == 1 && KeyOfKnownHost(d', k)
    {
      if k != key {
        assert KeyOfKnownHost(d, k);
      }
    }
  }

  /** Registration keeps the invariant; a new host name, which needs the
      counter to have room, gets an address of the block that no other
      host name has. */
  lemma RegisterPreservesInv(d: Dns, p: PrefixLen, svcId: string, dnsNameToReg: string,
                             port: ServiceKey.Port, ctx: Ctx, network: string, svcName: string)
    requires Inv(d, p)
    requires Normalize(dnsNameToReg) !in d.hostnameMap ==> d.ipCount < HostBits(p)
    ensures var s := Register(d, svcId, dnsNameToReg, port, ctx, network, svcName);
      && Inv(s.dns, p)
      && Allocated(s.dns, p, s.reply.ip)
      && (Normalize(dnsNameToReg) !in d.hostnameMap ==>
            forall n :: n in d.hostnameMap ==> d.hostnameMap[n].ip != s.reply.ip)
  {
    var name := Normalize(dnsNameToReg);
    var key := ServiceKey.HostPort(name, port);
    if name !in d.hostnameMap {
      AllocatePreservesInv(d, p, name, port, ctx, network, svcName, svcId);
    } else if key !in d.serviceMap {
        AddServicePreservesInv(d, p, key, ctx, svcName, svcId);
    }
  }

  /** Deleting a service entry keeps the invariant. */
  lemma RemoveServicePreservesInv(d: Dns, p: PrefixLen, key: ServiceKey.HostPort)
    requires Inv(d, p)
    ensures Inv(d.(serviceMap := d.serviceMap - {key}), p)
  {
    var d' := d.(serviceMap := d.serviceMap - {key});
    assert HostsAllocated(d', p);
    assert forall k :: k in d'.serviceMap ==> KeyOfKnownHost(d, k) && KeyOfKnownHost(d', k);
  }

  /** Deregistration on sound service entries either changes nothing or
      deletes exactly one entry; when some entry is owned by (ctx, name)
      and `order` covers the keys, it deletes one. */
  lemma DeregisterRemovesAtMostOne(d: Dns, ctx: Ctx, name: string, order: seq<ServiceKey.HostPort>)
    requires ServicesSound(d)
    ensures var d' := DeregisterService(d, ctx, name, order);
      || d' == d
      || exists k :: k in d.serviceMap && d' == d.(serviceMap := d.serviceMap - {k})
    ensures var d' := DeregisterService(d, ctx, name, order);
      CoversKeys(order, d.serviceMap) && (exists k :: Owned(d.serviceMap, k, ctx, name)) ==>
        |d'.serviceMap| == |d.serviceMap| - 1
  {
    var d' := DeregisterService(d, ctx, name, order);
    match FirstOwned(d.serviceMap, ctx, name, order, 0)
    case None =>
      if CoversKeys(order, d.serviceMap) {
        assert forall k :: k in d.serviceMap ==> !Owned(d.serviceMap, k, ctx, name);
      }
    case Some(i) =>
      var k := order[i];
      assert d.serviceMap[k].count == 1;
      assert d' == d.(serviceMap := d.serviceMap - {k});
      assert d'.serviceMap.Keys == d.serviceMap.Keys - {k};
  }

  /** Deregistration keeps the invariant, and the entries that remain are
      unchanged. */
  lemma DeregisterPreservesInv(d: Dns, p: PrefixLen, ctx: Ctx, name: string, order: seq<ServiceKey.HostPort>)
    requires Inv(d, p)
    ensures var d' := DeregisterService(d, ctx, name, order);
      && Inv(d', p)
      && d'.serviceMap.Keys <= d.serviceMap.Keys
      && (forall k :: k in d'.serviceMap ==> d'.serviceMap[k] == d.serviceMap[k])
  {
    var d' := DeregisterService(d, ctx, name, order);
    DeregisterRemovesAtMostOne(d, ctx, name, order);
    if d' != d {
      var k :| k in d.serviceMap && d' == d.(serviceMap := d.serviceMap - {k});
      RemoveServicePreservesInv(d, p, k);
    }
  }

  // ---------------------------------------------------------------------
  // Uniqueness as seen through Resolve
  // ---------------------------------------------------------------------

  /** Every known host name resolves to an address of the block, and two
      names that normalize differently never resolve to the same address. */
  lemma ResolvedAddressesUnique(d: Dns, p: PrefixLen, a: string, b: string)
    requires Inv(d, p)
    ensures Resolve(d, a).Some? ==> Network(Resolve(d, a).value, p) == d.cidr
    ensures Resolve(d, a).Some? && Resolve(d, b).Some? ==>
      (Resolve(d, a) == Resolve(d, b) <==> Normalize(a) == Normalize(b))
  {
  }

  /** Deregistration never touches host names: every name resolves as
      before. */
  lemma DeregisterKeepsResolve(d: Dns, ctx: Ctx, name: string, order: seq<ServiceKey.HostPort>, q: string)
    ensures Resolve(DeregisterService(d, ctx, name, order), q) == Resolve(d, q)
  {
  }

  /** Each host name entry is found by `Resolve` under its own key. */
  lemma EntriesResolve(d: Dns, p: PrefixLen, n: string)
    requires Inv(d, p)
    requires n in d.hostnameMap
    ensures Resolve(d, n) == Some(d.hostnameMap[n].ip)
  {
    NormalizeFixesNormalized(n);
  }

  // ---------------------------------------------------------------------
  // Runs of calls
  // ---------------------------------------------------------------------

  /** One state-changing call on the DNS manager. `InitCall` is a direct
      `DnsInit`, such as the `DnsInit(Ipv4ip, 24)` of `CreateTun`
      (service/ziti-tunnel/runtime/state.go:162), which may run before any
      registration. */
  datatype Call =
    | RegisterCall(svcId: string, dnsName: string, port: ServiceKey.Port, ctx: Ctx,
                   network: string, svcName: string)
    | DeregisterCall(ctx: Ctx, name: string, order: seq<ServiceKey.HostPort>)
    | InitCall(ip: Word, maskBits: int)

  /** The state after one call; a panicking `DnsInit` leaves it as it was. */
  function Apply(d: Dns, cfg: Config, c: Call): Dns {
    match c
    case RegisterCall(svcId, dnsName, port, ctx, network, svcName) =>
      RegisterService(d, cfg, svcId, dnsName, port, ctx, network, svcName).dns
    case DeregisterCall(ctx, name, order) => DeregisterService(d, ctx, name, order)
    case InitCall(ip, maskBits) =>
      match DnsInit(d, ip, maskBits)
      case Success(d') => d'
      case Failure(_) => d
  }

  /** The state after the calls, in order. */
  function Run(d: Dns, cfg: Config, calls: seq<Call>): Dns
    decreases |calls|
  {
    if |calls| == 0 then d else Run(Apply(d, cfg, calls[0]), cfg, calls[1..])
  }

  /** The call registers a host name that has no entry yet, so it takes
      the next address from the counter. */
  predicate Allocates(d: Dns, c: Call) {
    c.RegisterCall? && Normalize(c.dnsName) !in d.hostnameMap
  }

  /** Before every call of the run that allocates on an initialized state,
      the counter is below the last host offset of the block, so the
      allocation still fits. The call that initializes starts the counter
      at 2 and needs no room of its own. */
  predicate HasRoom(d: Dns, cfg: Config, p: PrefixLen, calls: seq<Call>)
    decreases |calls|
  {
    || |calls| == 0
    || (&& (d.initialized && Allocates(d, calls[0]) ==> d.ipCount < HostBits(p))
        && HasRoom(Apply(d, cfg, calls[0]), cfg, p, calls[1..]))
  }

  /** One call keeps the invariant and every host name entry. */
  lemma ApplyPreservesInv(d: Dns, cfg: Config, p: PrefixLen, c: Call)
    requires Inv(d, p)
    requires Allocates(d, c) ==> d.ipCount < HostBits(p)
    ensures Inv(Apply(d, cfg, c), p)
    ensures forall n :: n in d.hostnameMap ==>
      n in Apply(d, cfg, c).hostnameMap && Apply(d, cfg, c).hostnameMap[n] == d.hostnameMap[n]
  {
    match c
    case RegisterCall(svcId, dnsName, port, ctx, network, svcName) =>
      RegisterPreservesInv(d, p, svcId, dnsName, port, ctx, network, svcName);
    case DeregisterCall(ctx, name, order) =>
      DeregisterPreservesInv(d, p, ctx, name, order);
    case InitCall(ip, maskBits) =>
  }

  /** Over any run whose allocations stay inside the block, addresses stay
      in the block and distinct, and no host name entry ever changes. */
  lemma {:induction false} RunPreservesInv(d: Dns, cfg: Config, p: PrefixLen, calls: seq<Call>)
    requires Inv(d, p)
    requires HasRoom(d, cfg, p, calls)
    ensures Inv(Run(d, cfg, calls), p)
    ensures forall n :: n in d.hostnameMap ==>
      n in Run(d, cfg, calls).hostnameMap && Run(d, cfg, calls).hostnameMap[n] == d.hostnameMap[n]
    decreases |calls|
  {
    if |calls| > 0 {
      ApplyPreservesInv(d, cfg, p, calls[0]);
      RunPreservesInv(Apply(d, cfg, calls[0]), cfg, p, calls[1..]);
    }
  }

  /** The prefix length of the first `DnsInit` of the run: that of the
      first registration or direct init, whichever comes first, since
      `initOnce` lets only the first one act. Deregistrations do not
      initialize. */
  function FirstPrefix(cfg: Config, calls: seq<Call>): int
    decreases |calls|
  {
    if |calls| == 0 then cfg.maskBits
    else match calls[0]
      case RegisterCall(_, _, _, _, _, _) => cfg.maskBits
      case InitCall(_, maskBits) => maskBits
      case DeregisterCall(_, _, _) => FirstPrefix(cfg, calls[1..])
  }

  /** Over the process lifetime: from the global value at start-up, every
      run whose allocations stay inside the block either has not yet
      initialized (only deregistrations, which find nothing) or keeps the
      invariant for the block of its first `DnsInit`, whether that came
      from a registration or from a direct init, so addresses stay in that
      block and distinct. */
  lemma {:induction false} RunFromStartKeepsInv(cfg: Config, calls: seq<Call>)
    requires 0 <= FirstPrefix(cfg, calls) <= 30
    requires HasRoom(Start, cfg, FirstPrefix(cfg, calls), calls)
    ensures Run(Start, cfg, calls) == Start || Inv(Run(Start, cfg, calls), FirstPrefix(cfg, calls))
    decreases |calls|
  {
    if |calls| > 0 {
      var p: PrefixLen := FirstPrefix(cfg, calls);
      match calls[0]
      case DeregisterCall(ctx, name, order) =>
        assert Apply(Start, cfg, calls[0]) == Start;
        RunFromStartKeepsInv(cfg, calls[1..]);
      case RegisterCall(svcId, dnsName, port, ctx, network, svcName) =>
        InitEstablishesInv(Start, cfg.ip, p);
        var d0 := DnsInit(Start, cfg.ip, p).value;
        RoomForFirstHosts(p);
        RegisterPreservesInv(d0, p, svcId, dnsName, port, ctx, network, svcName);
        RunPreservesInv(Apply(Start, cfg, calls[0]), cfg, p, calls[1..]);
      case InitCall(ip, maskBits) =>
        InitEstablishesInv(Start, ip, p);
        RunPreservesInv(Apply(Start, cfg, calls[0]), cfg, p, calls[1..]);
    }
  }
}

=== FILE: dnsscenarios.dfy ===
/**
 The registration protocol of service/cziti/dns.go on concrete call
 sequences: what the code does where its own comments suggest otherwise.
 The comments at dns.go:103-104 and :154 speak of a reference counter of
 the services sharing a mapping, and `ctxService` has a `count` field,
 but the increments and decrements act on copies and are never stored.
 */
module DnsScenarios {
  import opened Wrappers
  import opened DnsName
  import opened Ipv4Block
  import ServiceKey
  import opened Dns

  /** The counter starts at 2 and `atomic.AddUint32` returns the value after
      the increment, so the first address handed out is `cidr | 3`. */
  lemma FirstAddressIsOffsetThree(d: Dns, cfg: Config, svcId: string, dnsName: string,
                                  port: ServiceKey.Port, ctx: Ctx, network: string, svcName: string)
    requires !d.initialized
    requires ValidPrefix(cfg.maskBits)
    ensures RegisterService(d, cfg, svcId, dnsName, port, ctx, network, svcName).reply
         == Mapped(Or(Network(cfg.ip, cfg.maskBits), 3))
  {
    var d0 := DnsInit(d, cfg.ip, cfg.maskBits).value;
    assert d0.ipCount == 2 && d0.hostnameMap == map[];
    NewNameTakesNextAddress(d0, svcId, dnsName, port, ctx, network, svcName);
  }

  /** Repeating a registration that succeeded, from the network that owns
      the host name, returns the same address and changes nothing: the
      source's `count ++` lands on a copy of the map entry. */
  lemma RepeatRegistrationChangesNothing(d: Dns, svcId: string, dnsName: string,
                                         port: ServiceKey.Port, ctx: Ctx, network: string, svcName: string)
    requires d.initialized
    requires Register(d, svcId, dnsName, port, ctx, network, svcName).reply.Mapped?
    requires Normalize(dnsName) !in d.hostnameMap || d.hostnameMap[Normalize(dnsName)].network == network
    ensures var s1 := Register(d, svcId, dnsName, port, ctx, network, svcName);
            Register(s1.dns, svcId, dnsName, port, ctx, network, svcName) == s1
  {
  }

  /** A second network may add a new port to a host name another network
      owns, but repeating exactly that registration is then refused with a
      network conflict, because the check compares against the host name
      entry's network. */
  lemma ForeignNewPortThenConflict(d: Dns, svcId: string, dnsName: string,
                                   port: ServiceKey.Port, ctx: Ctx, network: string, svcName: string)
    requires d.initialized
    requires Normalize(dnsName) in d.hostnameMap
    requires ServiceKey.HostPort(Normalize(dnsName), port) !in d.serviceMap
    requires d.hostnameMap[Normalize(dnsName)].network != network
    ensures var s1 := Register(d, svcId, dnsName, port, ctx, network, svcName);
      && s1.reply == Mapped(d.hostnameMap[Normalize(dnsName)].ip)
      && s1.dns.hostnameMap == d.hostnameMap && s1.dns.ipCount == d.ipCount
      && Register(s1.dns, svcId, dnsName, port, ctx, network, svcName)
         == Step(Conflict(d.hostnameMap[Normalize(dnsName)].ip,
                          NetworkConflict(d.hostnameMap[Normalize(dnsName)].network)),
                 s1.dns)
  {
  }

  /** From the initial state, a first registration maps the name and holds
      exactly one service entry. */
  lemma FirstRegistration(cfg: Config, svcId: string, dnsName: string,
                          port: ServiceKey.Port, ctx: Ctx, network: string, svcName: string)
    requires ValidPrefix(cfg.maskBits)
    ensures var s1 := RegisterService(Start, cfg, svcId, dnsName, port, ctx, network, svcName);
      && s1 == Register(DnsInit(Start, cfg.ip, cfg.maskBits).value, svcId, dnsName, port, ctx, network, svcName)
      && s1.reply.Mapped?
      && s1.dns.serviceMap
         == map[ServiceKey.HostPort(Normalize(dnsName), port) := ServiceEntry(ctx, svcName, svcId, 1)]
  {
  }

  /** Registering the same host:port twice gives the same reply and the
      same state: no reference count is kept. */
  lemma RegisterTwice(cfg: Config, svcId: string, dnsName: string,
                      port: ServiceKey.Port, ctx: Ctx, network: string, svcName: string)
    requires ValidPrefix(cfg.maskBits)
    ensures var s1 := RegisterService(Start, cfg, svcId, dnsName, port, ctx, network, svcName);
            RegisterService(s1.dns, cfg, svcId, dnsName, port, ctx, network, svcName) == s1
  {
    FirstRegistration(cfg, svcId, dnsName, port, ctx, network, svcName);
    var d0 := DnsInit(Start, cfg.ip, cfg.maskBits).value;
    RepeatRegistrationChangesNothing(d0, svcId, dnsName, port, ctx, network, svcName);
  }

  /** Registering the same host:port twice and deregistering once removes
      the service entry: no reference count survives. The host name still
      resolves to its address. */
  lemma RegisterTwiceDeregisterOnce(cfg: Config, svcId: string, dnsName: string,
                                    port: ServiceKey.Port, ctx: Ctx, network: string, svcName: string,
                                    order: seq<ServiceKey.HostPort>)
    requires ValidPrefix(cfg.maskBits)
    requires order == [ServiceKey.HostPort(Normalize(dnsName), port)]
    ensures var s1 := RegisterService(Start, cfg, svcId, dnsName, port, ctx, network, svcName);
            var s2 := RegisterService(s1.dns, cfg, svcId, dnsName, port, ctx, network, svcName);
            var d3 := DeregisterService(s2.dns, ctx, svcName, order);
      && d3.serviceMap == map[]
      && Resolve(d3, dnsName) == Some(s1.reply.ip)
  {
    var s1 := RegisterService(Start, cfg, svcId, dnsName, port, ctx, network, svcName);
    var key := ServiceKey.HostPort(Normalize(dnsName), port);
    FirstRegistration(cfg, svcId, dnsName, port, ctx, network, svcName);
    RegisterTwice(cfg, svcId, dnsName, port, ctx, network, svcName);
    AnyOwnedEntryMayBeRemoved(s1.dns, ctx, svcName, key, []);
    assert [key] + [] == order;
    assert s1.dns.serviceMap - {key} == map[];
  }

  /** Whichever entry owned by (ctx, name) the map iteration reaches first
      is the one removed: every owned entry can be the one. */
  lemma AnyOwnedEntryMayBeRemoved(d: Dns, ctx: Ctx, name: string, key: ServiceKey.HostPort, rest: seq<ServiceKey.HostPort>)
    requires Owned(d.serviceMap, key, ctx, name)
    requires d.serviceMap[key].count <= 1
    ensures DeregisterService(d, ctx, name, [key] + rest).serviceMap == d.serviceMap - {key}
  {
    assert ([key] + rest)[0] == key;
  }

  /** A host name seen for the first time takes the address one past the
      counter, whatever the counter is, and records one host name entry
      and one service entry with count 1. */
  lemma NewNameTakesNextAddress(d: Dns, svcId: string, dnsName: string,
                                port: ServiceKey.Port, ctx: Ctx, network: string, svcName: string)
    requires d.initialized
    requires Normalize(dnsName) !in d.hostnameMap
    ensures var s := Register(d, svcId, dnsName, port, ctx, network, svcName);
            var ip := Or(d.cidr, Successor(d.ipCount));
      && s.reply == Mapped(ip)
      && s.dns.ipCount == Successor(d.ipCount)
      && s.dns.hostnameMap == d.hostnameMap[Normalize(dnsName) := HostEntry(ctx, ip, network)]
      && s.dns.serviceMap
         == d.serviceMap[ServiceKey.HostPort(Normalize(dnsName), port) := ServiceEntry(ctx, svcName, svcId, 1)]
  {
    var s := Register(d, svcId, dnsName, port, ctx, network, svcName);
    var name := Normalize(dnsName);
    var ip := Or(d.cidr, Successor(d.ipCount));
    assert s.dns.hostnameMap == d.hostnameMap[name := HostEntry(ctx, ip, network)];
  }

  /** A known host name on a port not yet mapped gets the host name's
      address, from any network; only the service entry is added. */
  lemma KnownNameNewPort(d: Dns, svcId: string, dnsName: string,
                         port: ServiceKey.Port, ctx: Ctx, network: string, svcName: string)
    requires d.initialized
    requires Normalize(dnsName) in d.hostnameMap
    requires ServiceKey.HostPort(Normalize(dnsName), port) !in d.serviceMap
    ensures var s := Register(d, svcId, dnsName, port, ctx, network, svcName);
      && s.reply == Mapped(d.hostnameMap[Normalize(dnsName)].ip)
      && s.dns.hostnameMap == d.hostnameMap
      && s.dns.ipCount == d.ipCount
      && s.dns.serviceMap
         == d.serviceMap[ServiceKey.HostPort(Normalize(dnsName), port) := ServiceEntry(ctx, svcName, svcId, 1)]
  {
  }

  /** A host:port already mapped changes nothing. The network of the host
      name entry is checked before the service id, and either conflict
      still reports the mapped address. */
  lemma MappedKeyKeepsState(d: Dns, svcId: string, dnsName: string,
                            port: ServiceKey.Port, ctx: Ctx, network: string, svcName: string)
    requires d.initialized
    requires Normalize(dnsName) in d.hostnameMap
    requires ServiceKey.HostPort(Normalize(dnsName), port) in d.serviceMap
    ensures var s := Register(d, svcId, dnsName, port, ctx, network, svcName);
            var host := d.hostnameMap[Normalize(dnsName)];
            var svc := d.serviceMap[ServiceKey.HostPort(Normalize(dnsName), port)];
      && s.dns == d
      && (network != host.network ==> s.reply == Conflict(host.ip, NetworkConflict(host.network)))
      && (network == host.network && svcId != svc.serviceId ==>
            s.reply == Conflict(host.ip, ServiceIdConflict(svc.serviceId)))
      && (network == host.network && svcId == svc.serviceId ==> s.reply == Mapped(host.ip))
  {
  }

  /** Nothing checks the counter against the block: once the last host
      offset is handed out, the next allocation has an empty host part, so
      it is the base address of a block and not a host address. */
  lemma CounterPastLastHost(d: Dns, p: PrefixLen, svcId: string, dnsName: string,
                           port: ServiceKey.Port, ctx: Ctx, network: string, svcName: string)
    requires d.initialized
    requires 1 <= p
    requires Low(d.cidr, HostLen(p)) == 0
    requires d.ipCount == HostBits(p)
    requires Normalize(dnsName) !in d.hostnameMap
    ensures var ip := Register(d, svcId, dnsName, port, ctx, network, svcName).reply.ip;
      && HostPart(ip, p) == 0
      && Network(ip, p) == ip
  {
    NewNameTakesNextAddress(d, svcId, dnsName, port, ctx, network, svcName);
    ComposePastLastHost(d.cidr, p);
  }

  /** Three registrations of one host name from an initial state: the
      first gets host offset 3 of the block, a second port from the same
      network gets the same address, and the first port from another
      network is refused because the host name belongs to the first. */
  lemma ThreeRegistrations(cfg: Config, dnsName: string)
    requires ValidPrefix(cfg.maskBits)
    ensures var s1 := RegisterService(Start, cfg, "svc1", dnsName, 443, 1, "N1", "api");
            var s2 := RegisterService(s1.dns, cfg, "svc1", dnsName, 8443, 1, "N1", "api-admin");
            var s3 := RegisterService(s2.dns, cfg, "svc2", dnsName, 443, 2, "N2", "other");
            var ip := Or(Network(cfg.ip, cfg.maskBits), 3);
      && s1.reply == Mapped(ip)
      && s2.reply == Mapped(ip)
      && s3.reply == Conflict(ip, NetworkConflict("N1"))
      && |s2.dns.serviceMap| == 2
      && s3.dns == s2.dns
  {
    var name := Normalize(dnsName);
    var ip := Or(Network(cfg.ip, cfg.maskBits), 3);
    var k1 := ServiceKey.HostPort(name, 443);
    var k2 := ServiceKey.HostPort(name, 8443);
    var s1 := RegisterService(Start, cfg, "svc1", dnsName, 443, 1, "N1", "api");
    FirstRegistration(cfg, "svc1", dnsName, 443, 1, "N1", "api");
    FirstAddressIsOffsetThree(Start, cfg, "svc1", dnsName, 443, 1, "N1", "api");
    assert s1.dns.hostnameMap[name] == HostEntry(1, ip, "N1");
    var s2 := RegisterService(s1.dns, cfg, "svc1", dnsName, 8443, 1, "N1", "api-admin");
    assert s2 == Register(s1.dns, "svc1", dnsName, 8443, 1, "N1", "api-admin");
    assert k2 !in s1.dns.serviceMap;
    assert s2.dns.serviceMap.Keys == {k1, k2};
    assert s2.dns.hostnameMap == s1.dns.hostnameMap;
    var s3 := RegisterService(s2.dns, cfg, "svc2", dnsName, 443, 2, "N2", "other");
    assert s3 == Register(s2.dns, "svc2", dnsName, 443, 2, "N2", "other");
    assert k1 in s2.dns.serviceMap;
  }
}

=== FILE: ipv4block.dfy ===
/**
 IPv4 block arithmetic used by `DnsInit` and address allocation in
 service/cziti/dns.go. Addresses are 32-bit words read big-endian from
 the four address bytes, so the first octet is the high byte. Words are
 integers below 2^32, and the two bitwise operations the source applies
 to them, masking with a prefix mask and OR-ing in the counter, are
 defined bit by bit.
 */
module Ipv4Block {

  /** 2^32: addresses and Go's `uint32` counter are words below it. */
  const WordSize: int := 0x1_0000_0000

  type Word = x: int | 0 <= x < 0x1_0000_0000

  /** Prefix lengths `net.CIDRMask(m, 32)` accepts; for any other value it
      returns nil. */
  predicate ValidPrefix(m: int) {
    0 <= m <= 32
  }

  type PrefixLen = p: int | 0 <= p <= 32

  function Pow2(k: nat): (r: nat)
    ensures r >= 1
  {
    if k == 0 then 1 else 2 * Pow2(k - 1)
  }

  /** The number of host bits of a block of prefix length `p`. */
  function HostLen(p: PrefixLen): nat {
    32 - p
  }

  /** The last host offset of a block of prefix length `p`: the value of
      its all-ones host part. */
  function HostBits(p: PrefixLen): nat {
    Pow2(HostLen(p)) - 1
  }

  /** The low `k` bits of `x`, taken one bit at a time. */
  function Low(x: nat, k: nat): (r: nat)
    ensures r < Pow2(k) && r <= x
  {
    if k == 0 then 0 else 2 * Low(x / 2, k - 1) + x % 2
  }

  /** The host part of `ip` in a block of prefix length `p`
      (`ip & ^net.CIDRMask(p, 32)`). */
  function HostPart(ip: Word, p: PrefixLen): (r: nat)
    ensures r <= HostBits(p) && r <= ip
  {
    Low(ip, HostLen(p))
  }

  /** `ip.Mask(net.CIDRMask(p, 32))`: the address with its host part
      cleared, the base address of the block holding `ip`. */
  function Network(ip: Word, p: PrefixLen): (r: Word)
    ensures Low(r, HostLen(p)) == 0
    ensures r + HostPart(ip, p) == ip
  {
    LowOfRest(ip, HostLen(p));
    ip - Low(ip, HostLen(p))
  }

  /** Bitwise OR of the low `w` bits of `a` and `b`. */
  function OrBits(a: nat, b: nat, w: nat): (r: nat)
    ensures r < Pow2(w)
  {
    if w == 0 then 0
    else 2 * OrBits(a / 2, b / 2, w - 1) + (if a % 2 == 1 || b % 2 == 1 then 1 else 0)
  }

  /** `a | b` on `uint32`. */
  function Or(a: Word, b: Word): Word {
    WordIsPow2();
    OrBits(a, b, 32)
  }

  /** Bit `i` of `x`, counting from the least significant. */
  function Bit(x: nat, i: nat): (b: nat)
    ensures b < 2
  {
    if i == 0 then x % 2 else Bit(x / 2, i - 1)
  }

  /** `Or` is bitwise: each of the 32 bits of the result is set exactly
      when that bit is set in either operand. */
  lemma OrIsBitwise(a: Word, b: Word, i: nat)
    requires i < 32
    ensures Bit(Or(a, b), i) == 1 <==> Bit(a, i) == 1 || Bit(b, i) == 1
  {
    OrBitsBit(a, b, 32, i);
  }

  lemma {:induction false} OrBitsBit(a: nat, b: nat, w: nat, i: nat)
    requires i < w
    ensures Bit(OrBits(a, b, w), i) == 1 <==> Bit(a, i) == 1 || Bit(b, i) == 1
    decreases i
  {
    var rest := OrBits(a / 2, b / 2, w - 1);
    var r := OrBits(a, b, w);
    assert r == 2 * rest + (if a % 2 == 1 || b % 2 == 1 then 1 else 0);
    assert r / 2 == rest;
    if i > 0 {
      OrBitsBit(a / 2, b / 2, w - 1, i - 1);
    }
  }

  /** `atomic.AddUint32(&x, 1)` as seen in the value: the successor,
      wrapping to 0 past the largest word. */
  function Successor(c: Word): Word {
    if c == WordSize - 1 then 0 else c + 1
  }

  /** `Successor` is addition modulo 2^32. */
  lemma SuccessorIsAddModulo(c: Word)
    ensures Successor(c) == (c + 1) % WordSize
  {
  }

  // ---------------------------------------------------------------------
  // Facts about the bit functions
  // ---------------------------------------------------------------------

  lemma WordIsPow2()
    ensures Pow2(32) == WordSize
  {
    assert Pow2(8) == 0x100;
    assert Pow2(16) == 0x1_0000;
    assert Pow2(24) == 0x100_0000;
  }

  /** Powers of two grow with the exponent. */
  lemma {:induction false} Pow2Grows(k: nat, w: nat)
    requires k <= w
    ensures Pow2(k) <= Pow2(w)
    decreases w
  {
    if k < w {
      Pow2Grows(k, w - 1);
    }
  }

  /** A number of fewer than `k` bits is its own low part. */
  lemma {:induction false} LowOfSmall(x: nat, k: nat)
    requires x < Pow2(k)
    ensures Low(x, k) == x
  {
    if k > 0 {
      LowOfSmall(x / 2, k - 1);
    }
  }

  /** What is left after removing the low part has no low bits. */
  lemma {:induction false} LowOfRest(x: nat, k: nat)
    ensures Low(x - Low(x, k), k) == 0
  {
    if k > 0 {
      var y := x - Low(x, k);
      assert y % 2 == 0 && y / 2 == x / 2 - Low(x / 2, k - 1);
      LowOfRest(x / 2, k - 1);
    }
  }

  /** OR with zero keeps the low bits. */
  lemma {:induction false} OrZero(a: nat, w: nat)
    ensures OrBits(a, 0, w) == Low(a, w)
  {
    if w > 0 {
      OrZero(a / 2, w - 1);
    }
  }

  /** OR-ing an offset of fewer than `k` bits into a number whose low `k`
      bits are zero is addition, and the offset becomes the low part. */
  lemma {:induction false} ComposeBits(a: nat, b: nat, k: nat, w: nat)
    requires k <= w && a < Pow2(w)
    requires Low(a, k) == 0 && b < Pow2(k)
    ensures OrBits(a, b, w) == a + b
    ensures Low(a + b, k) == b
    decreases k
  {
    if k == 0 {
      OrZero(a, w);
      LowOfSmall(a, w);
    } else {
      assert a % 2 == 0 && Low(a / 2, k - 1) == 0;
      ComposeBits(a / 2, b / 2, k - 1, w - 1);
      assert (a + b) / 2 == a / 2 + b / 2;
    }
  }

  /** OR-ing two numbers without low `k` bits gives one without. */
  lemma {:induction false} OrKeepsLowZero(a: nat, b: nat, k: nat, w: nat)
    requires k <= w
    requires Low(a, k) == 0 && Low(b, k) == 0
    ensures Low(OrBits(a, b, w), k) == 0
    decreases k
  {
    if k > 0 {
      OrKeepsLowZero(a / 2, b / 2, k - 1, w - 1);
    }
  }

  /** A power of two has no bit below its exponent. */
  lemma {:induction false} Pow2LowZero(k: nat)
    ensures Low(Pow2(k), k) == 0
  {
    if k > 0 {
      assert Pow2(k) / 2 == Pow2(k - 1) && Pow2(k) % 2 == 0;
      Pow2LowZero(k - 1);
    }
  }

  // ---------------------------------------------------------------------
  // Blocks
  // ---------------------------------------------------------------------

  /** Up to /30 a block has room for host offsets 2 and 3. */
  lemma RoomForFirstHosts(p: PrefixLen)
    requires p <= 30
    ensures HostBits(p) >= 3
  {
    Pow2Grows(2, HostLen(p));
  }

  /** Every host offset of a block, and the offset just past the last one
      when the prefix is at least one bit, is a word. */
  lemma HostOffsetsAreWords(p: PrefixLen)
    ensures HostBits(p) < WordSize
    ensures 1 <= p ==> HostBits(p) + 1 < WordSize
  {
    WordIsPow2();
    Pow2Grows(HostLen(p), 32);
    if 1 <= p {
      Pow2Grows(HostLen(p), 31);
    }
  }

  /** OR-ing a host offset into the base address of a block is addition:
      the base stays the network part and the offset becomes the host
      part. */
  lemma ComposeSplits(base: Word, offset: Word, p: PrefixLen)
    requires Low(base, HostLen(p)) == 0
    requires offset <= HostBits(p)
    ensures Or(base, offset) == base + offset
    ensures Network(Or(base, offset), p) == base
    ensures HostPart(Or(base, offset), p) == offset
  {
    WordIsPow2();
    Pow2Grows(HostLen(p), 32);
    ComposeBits(base, offset, HostLen(p), 32);
  }

  /** The offset just past the last host offset has an empty host part:
      OR-ed into the base it gives an address that is the base address of
      its own block, and so never a host address of any block. */
  lemma ComposePastLastHost(base: Word, p: PrefixLen)
    requires 1 <= p
    requires Low(base, HostLen(p)) == 0
    ensures HostBits(p) < WordSize - 1 && Successor(HostBits(p)) == HostBits(p) + 1
    ensures HostPart(Or(base, Successor(HostBits(p))), p) == 0
    ensures Network(Or(base, Successor(HostBits(p))), p) == Or(base, Successor(HostBits(p)))
  {
    HostOffsetsAreWords(p);
    Pow2LowZero(HostLen(p));
    OrKeepsLowZero(base, Pow2(HostLen(p)), HostLen(p), 32);
    var ip := Or(base, HostBits(p) + 1);
    assert Network(ip, p) + HostPart(ip, p) == ip;
  }
}

=== FILE: servicekey.dfy ===
/**
 The service-map key of the DNS manager: `fmt.Sprint(dnsName, ':', port)`
 in service/cziti/dns.go. `fmt.Sprint` puts no space between a string
 operand and its neighbour and one space between two non-string operands;
 the rune ':' prints as its code point, 58, and the uint16 port in decimal.
 So the key of ("a.", 443) is "a.58 443".

 The key is parsed back here to show that it is injective: distinct
 (name, port) pairs never share a service-map entry, so a map keyed by
 the text has the same entries as one keyed by the pair, which is how the
 rest of the model keys it.
 */
module ServiceKey {
  import opened Wrappers

  /** Ports are Go `uint16`. */
  type Port = p: int | 0 <= p < 0x1_0000

  predicate IsDigit(c: char) {
    '0' <= c <= '9'
  }

  predicate AllDigits(s: string) {
    forall i :: 0 <= i < |s| ==> IsDigit(s[i])
  }

  function DigitChar(d: nat): (c: char)
    requires d < 10
    ensures IsDigit(c)
  {
    ('0' as int + d) as char
  }

  function DigitValue(c: char): (d: nat)
    requires IsDigit(c)
    ensures d < 10
    ensures DigitChar(d) == c
  {
    c as int - '0' as int
  }

  /** Decimal rendering of a natural number, as `fmt` prints an unsigned
      integer: no sign, no leading zeros, "0" for zero. */
  function Decimal(n: nat): (s: string)
    ensures |s| > 0
    ensures AllDigits(s)
    ensures s[0] == '0' ==> n == 0
    decreases n
  {
    if n < 10 then [DigitChar(n)] else Decimal(n / 10) + [DigitChar(n % 10)]
  }

  /** Reads a string of decimal digits. */
  function ParseDecimal(s: string): nat
    requires AllDigits(s)
  {
    if |s| == 0 then 0
    else ParseDecimal(s[..|s| - 1]) * 10 + DigitValue(s[|s| - 1])
  }

  lemma {:induction false} ParseDecimalOfDecimal(n: nat)
    ensures ParseDecimal(Decimal(n)) == n
    decreases n
  {
    var s := Decimal(n);
    if n < 10 {
      assert s[..|s| - 1] == [];
    } else {
      ParseDecimalOfDecimal(n / 10);
      assert s[..|s| - 1] == Decimal(n / 10);
      assert s[|s| - 1] == DigitChar(n % 10);
    }
  }

  /** A service-map key before it is rendered as text. */
  datatype HostPort = HostPort(name: string, port: Port)

  /** The key of the (normalized) host name and port; it reads back as
      that name and port. */
  function Key(name: string, port: Port): (r: string)
    ensures Parse(r) == Some((name, port as nat))
  {
    ParseLaidOut(name, port);
    name + "58" + " " + Decimal(port)
  }

  /** The Go map key of a pair; it reads back as that pair. */
  function Text(k: HostPort): (r: string)
    ensures Parse(r) == Some((k.name, k.port as nat))
  {
    Key(k.name, k.port)
  }

  /** Index of the last space character. */
  function LastSpace(s: string): (r: Option<nat>)
    ensures r.Some? ==> r.value < |s| && s[r.value] == ' '
    ensures r.Some? ==> forall j :: r.value < j < |s| ==> s[j] != ' '
    ensures r.None? ==> forall j :: 0 <= j < |s| ==> s[j] != ' '
  {
    if |s| == 0 then None
    else if s[|s| - 1] == ' ' then Some(|s| - 1)
    else LastSpace(s[..|s| - 1])
  }

  /** Splits a key back into host name and port: the port is the digit
      run after the last space, and the name is what precedes "58 ". */
  function Parse(key: string): Option<(string, nat)> {
    match LastSpace(key)
    case None => None
    case Some(i) =>
      var head := key[..i];
      var digits := key[i + 1..];
      if |head| >= 2 && head[|head| - 2..] == "58" && |digits| > 0 && AllDigits(digits)
      then Some((head[..|head| - 2], ParseDecimal(digits)))
      else None
  }

  /** Reading the text of a name, "58 " and a port's decimal digits back
      yields the name and the port. */
  lemma ParseLaidOut(name: string, port: Port)
    ensures Parse(name + "58" + " " + Decimal(port)) == Some((name, port as nat))
  {
    var d := Decimal(port);
    var k := name + "58" + " " + d;
    var i := |name| + 2;
    assert k[i] == ' ';
    assert forall j :: i < j < |k| ==> k[j] == d[j - i - 1];
    var r := LastSpace(k);
    assert r == Some(i);
    assert k[..i] == name + "58";
    assert k[i + 1..] == d;
    assert (name + "58")[..|name|] == name;
    ParseDecimalOfDecimal(port);
  }

  /** Distinct (name, port) pairs have distinct keys. */
  lemma KeyInjective(name1: string, port1: Port, name2: string, port2: Port)
    requires Key(name1, port1) == Key(name2, port2)
    ensures name1 == name2 && port1 == port2
  {
    assert Parse(Key(name1, port1)) == Parse(Key(name2, port2));
  }

  /** Two pairs share a key text exactly when they are the same pair. */
  lemma TextInjective(a: HostPort, b: HostPort)
    ensures Text(a) == Text(b) <==> a == b
  {
    if Text(a) == Text(b) {
      KeyInjective(a.name, a.port, b.name, b.port);
    }
  }
}

=== FILE: tunnelerstate.dfy ===
/**
 The identity list of the tunneler state in
 service/ziti-tunnel/runtime/state.go: identities are looked up and
 removed by fingerprint, by linear search from the front.

 Go's `[]*dto.Identity` becomes a sequence of identity values; the nil
 pointer `Find` returns when nothing matches becomes `None`.
 */
module TunnelerState {
  import opened Wrappers

  /** `dto.Identity`, reduced to its fingerprint, which the lookups read,
      and its name, which lets two distinct identities share a
      fingerprint. */
  datatype Identity = Identity(name: string, fingerPrint: string)

  /** `TunnelerState`, reduced to its identity list. */
  datatype Tunneler = Tunneler(identities: seq<Identity>)

  /** Some identity carries fingerprint `fp`. */
  predicate HasMatch(ids: seq<Identity>, fp: string) {
    exists j :: 0 <= j < |ids| && ids[j].fingerPrint == fp
  }

  /** Position `i` holds the first identity with fingerprint `fp`. */
  predicate IsFirstMatch(ids: seq<Identity>, fp: string, i: int) {
    && 0 <= i < |ids|
    && ids[i].fingerPrint == fp
    && forall j :: 0 <= j < i ==> ids[j].fingerPrint != fp
  }

  /** No two identities share a fingerprint. */
  predicate UniqueFingerprints(ids: seq<Identity>) {
    forall i, j :: 0 <= i < j < |ids| ==> ids[i].fingerPrint != ids[j].fingerPrint
  }

  /** The number of identities with fingerprint `fp`. */
  function Count(ids: seq<Identity>, fp: string): nat {
    if |ids| == 0 then 0
    else Count(ids[..|ids| - 1], fp) + (if ids[|ids| - 1].fingerPrint == fp then 1 else 0)
  }

  /** `ids` without its element at position `i`. */
  predicate RemovedAt(ids: seq<Identity>, i: nat, r: seq<Identity>) {
    && i < |ids|
    && |r| == |ids| - 1
    && forall j {:trigger r[j]} :: 0 <= j < |r| ==> r[j] == (if j < i then ids[j] else ids[j + 1])
  }

  // ---------------------------------------------------------------------
  // Operations
  // ---------------------------------------------------------------------

  /** The range loop of `Find`, from position `from` on. */
  function FindFrom(ids: seq<Identity>, fp: string, from: nat): (r: nat)
    requires from <= |ids|
    ensures from <= r <= |ids|
    ensures r < |ids| ==> ids[r].fingerPrint == fp
    ensures forall j :: from <= j < r ==> ids[j].fingerPrint != fp
    decreases |ids| - from
  {
    if from == |ids| || ids[from].fingerPrint == fp then from
    else FindFrom(ids, fp, from + 1)
  }

  /** `Find`: the position and the identity of the first match, or the
      length of the list and nil. */
  function Find(t: Tunneler, fp: string): (r: (nat, Option<Identity>))
    ensures r.0 <= |t.identities|
    ensures r.0 < |t.identities| <==> HasMatch(t.identities, fp)
    ensures r.0 < |t.identities| ==>
      IsFirstMatch(t.identities, fp, r.0) && r.1 == Some(t.identities[r.0])
    ensures r.0 == |t.identities| ==> r.1 == None
  {
    var i := FindFrom(t.identities, fp, 0);
    if i < |t.identities| then (i, Some(t.identities[i])) else (i, None)
  }

  /** `RemoveByFingerprint`: splices out the first match, if any. */
  function RemoveByFingerprint(t: Tunneler, fp: string): (r: Tunneler)
    ensures !HasMatch(t.identities, fp) ==> r == t
    ensures HasMatch(t.identities, fp) ==>
      var i := Find(t, fp).0;
      && RemovedAt(t.identities, i, r.identities)
      && multiset(r.identities) == multiset(t.identities) - multiset{t.identities[i]}
  {
    var ids := t.identities;
    var (i, _) := Find(t, fp);
    if i < |ids| then
      SpliceRemoves(ids, i);
      Tunneler(ids[..i] + ids[i + 1..])
    else t
  }

  /** `FindByIdentity`: looks up the identity's fingerprint. */
  function FindByIdentity(t: Tunneler, id: Identity): (r: (nat, Option<Identity>))
    ensures r.0 < |t.identities| <==> HasMatch(t.identities, id.fingerPrint)
    ensures r.0 < |t.identities| ==>
      IsFirstMatch(t.identities, id.fingerPrint, r.0) && r.1 == Some(t.identities[r.0])
    ensures r.0 >= |t.identities| ==> r == (|t.identities|, None)
  {
    Find(t, id.fingerPrint)
  }

  /** `RemoveByIdentity`: removes the first identity with the given
      identity's fingerprint, which need not be that identity. When
      fingerprints are unique and the identity is listed, exactly that
      identity goes. */
  function RemoveByIdentity(t: Tunneler, id: Identity): (r: Tunneler)
    ensures !HasMatch(t.identities, id.fingerPrint) ==> r == t
    // whatever identity holds the first match of the fingerprint is spliced out
    ensures HasMatch(t.identities, id.fingerPrint) ==>
      var i := Find(t, id.fingerPrint).0;
      && RemovedAt(t.identities, i, r.identities)
      && multiset(r.identities) == multiset(t.identities) - multiset{t.identities[i]}
    ensures UniqueFingerprints(t.identities) && id in t.identities ==>
      && |r.identities| == |t.identities| - 1
      && multiset(r.identities) == multiset(t.identities) - multiset{id}
  {
    MemberIsFirstMatch(t.identities, id);
    RemoveByFingerprint(t, id.fingerPrint)
  }

  /** Splicing out position `i` removes that element and nothing else. */
  lemma SpliceRemoves(ids: seq<Identity>, i: nat)
    requires i < |ids|
    ensures ids == ids[..i] + [ids[i]] + ids[i + 1..]
    ensures RemovedAt(ids, i, ids[..i] + ids[i + 1..])
    ensures multiset(ids[..i] + ids[i + 1..]) == multiset(ids) - multiset{ids[i]}
  {
    assert ids == ids[..i] + [ids[i]] + ids[i + 1..];
  }

  // ---------------------------------------------------------------------
  // Counting matches
  // ---------------------------------------------------------------------

  lemma {:induction false} CountAppend(a: seq<Identity>, b: seq<Identity>, fp: string)
    ensures Count(a + b, fp) == Count(a, fp) + Count(b, fp)
    decreases |b|
  {
    if |b| == 0 {
      assert a + b == a;
    } else {
      assert (a + b)[..|a + b| - 1] == a + b[..|b| - 1];
      CountAppend(a, b[..|b| - 1], fp);
    }
  }

  /** A fingerprint is present exactly when it is counted. */
  lemma {:induction false} CountPositive(ids: seq<Identity>, fp: string)
    ensures Count(ids, fp) > 0 <==> HasMatch(ids, fp)
    decreases |ids|
  {
    if |ids| > 0 {
      var init := ids[..|ids| - 1];
      CountPositive(init, fp);
      if HasMatch(init, fp) {
        var j :| 0 <= j < |init| && init[j].fingerPrint == fp;
        assert ids[j] == init[j];
      }
      if HasMatch(ids, fp) && ids[|ids| - 1].fingerPrint != fp {
        var j :| 0 <= j < |ids| && ids[j].fingerPrint == fp;
        assert init[j] == ids[j];
      }
    }
  }

  /** Splitting the list around the removed position. */
  lemma RemoveSplits(t: Tunneler, fp: string)
    requires HasMatch(t.identities, fp)
    ensures var ids := t.identities;
            var i := Find(t, fp).0;
      && ids == ids[..i] + [ids[i]] + ids[i + 1..]
      && RemoveByFingerprint(t, fp).identities == ids[..i] + ids[i + 1..]
  {
  }

  /** A single removal drops exactly one identity with the fingerprint:
      later duplicates stay. */
  lemma RemoveDropsOneMatch(t: Tunneler, fp: string)
    ensures Count(RemoveByFingerprint(t, fp).identities, fp)
         == if HasMatch(t.identities, fp) then Count(t.identities, fp) - 1 else Count(t.identities, fp)
  {
    if HasMatch(t.identities, fp) {
      var ids := t.identities;
      var i := Find(t, fp).0;
      RemoveSplits(t, fp);
      CountAppend(ids[..i] + [ids[i]], ids[i + 1..], fp);
      CountAppend(ids[..i], [ids[i]], fp);
      CountAppend(ids[..i], ids[i + 1..], fp);
      assert Count([ids[i]], fp) == 1 by {
        assert [ids[i]][..0] == [];
      }
    }
  }

  /** Removal by one fingerprint leaves every other fingerprint's
      identities in place. */
  lemma RemoveKeepsOtherFingerprints(t: Tunneler, fp: string, other: string)
    requires other != fp
    ensures Count(RemoveByFingerprint(t, fp).identities, other) == Count(t.identities, other)
  {
    if HasMatch(t.identities, fp) {
      var ids := t.identities;
      var i := Find(t, fp).0;
      RemoveSplits(t, fp);
      CountAppend(ids[..i] + [ids[i]], ids[i + 1..], other);
      CountAppend(ids[..i], [ids[i]], other);
      CountAppend(ids[..i], ids[i + 1..], other);
      assert Count([ids[i]], other) == 0 by {
        assert [ids[i]][..0] == [];
      }
    }
  }

  /** After one removal the fingerprint is still found exactly when it
      was listed more than once. */
  lemma LaterDuplicateSurvives(t: Tunneler, fp: string)
    ensures Find(RemoveByFingerprint(t, fp), fp).1.Some? <==> Count(t.identities, fp) >= 2
  {
    RemoveDropsOneMatch(t, fp);
    CountPositive(t.identities, fp);
    CountPositive(RemoveByFingerprint(t, fp).identities, fp);
  }

  // ---------------------------------------------------------------------
  // Unique fingerprints
  // ---------------------------------------------------------------------

  /** With unique fingerprints, the first match of a listed identity's
      fingerprint is that identity. */
  lemma MemberIsFirstMatch(ids: seq<Identity>, id: Identity)
    ensures UniqueFingerprints(ids) && id in ids ==>
      HasMatch(ids, id.fingerPrint) && ids[Find(Tunneler(ids), id.fingerPrint).0] == id
  {
    if UniqueFingerprints(ids) && id in ids {
      var k :| 0 <= k < |ids| && ids[k] == id;
      assert ids[k].fingerPrint == id.fingerPrint;
    }
  }

  /** Without unique fingerprints, removing an identity can remove a
      different identity listed earlier with the same fingerprint. */
  lemma RemoveByIdentityDropsFirstHolder(a: Identity, b: Identity)
    requires a.fingerPrint == b.fingerPrint && a != b
    ensures RemoveByIdentity(Tunneler([a, b]), b).identities == [b]
  {
    assert IsFirstMatch([a, b], b.fingerPrint, 0);
  }

  /** With unique fingerprints, looking a listed identity up finds it. */
  lemma FindByIdentityFindsMember(t: Tunneler, id: Identity)
    requires UniqueFingerprints(t.identities) && id in t.identities
    ensures FindByIdentity(t, id).1 == Some(id)
  {
    MemberIsFirstMatch(t.identities, id);
  }

  /** Removal keeps fingerprints unique, and the removed fingerprint is
      gone. */
  lemma RemoveKeepsUnique(t: Tunneler, fp: string)
    requires UniqueFingerprints(t.identities)
    ensures UniqueFingerprints(RemoveByFingerprint(t, fp).identities)
    ensures !HasMatch(RemoveByFingerprint(t, fp).identities, fp)
  {
    if HasMatch(t.identities, fp) {
      RemovedAtKeepsUnique(t.identities, Find(t, fp).0, RemoveByFingerprint(t, fp).identities);
    }
  }

  /** Dropping one element of a list with unique fingerprints leaves a
      list with unique fingerprints that lacks the dropped one. */
  lemma RemovedAtKeepsUnique(ids: seq<Identity>, i: nat, r: seq<Identity>)
    requires UniqueFingerprints(ids) && RemovedAt(ids, i, r)
    ensures UniqueFingerprints(r)
    ensures forall j :: 0 <= j < |r| ==> r[j].fingerPrint != ids[i].fingerPrint
  {
    forall a, b | 0 <= a < b < |r|
      ensures r[a].fingerPrint != r[b].fingerPrint
    {
      var a' := if a < i then a else a + 1;
      var b' := if b < i then b else b + 1;
      assert r[a] == ids[a'] && r[b] == ids[b'] && a' < b';
    }
    forall j | 0 <= j < |r|
      ensures r[j].fingerPrint != ids[i].fingerPrint
    {
      var j' := if j < i then j else j + 1;
      assert r[j] == ids[j'] && j' != i;
    }
  }
}

=== FILE: wrappers.dfy ===
/** Wrappers shared by the model: a Go `nil` pointer, a missing map entry
    or a "not found" answer is `None`; an operation that can fail returns a
    `Result`. */
module Wrappers {

  datatype Option<+T> = None | Some(value: T)

  /** A value or the error that prevented it. */
  datatype Result<+T, +E> = Success(value: T) | Failure(error: E)
}
